=== FILE: README.md ===
# mish: a Dafny model of the shell's process-orchestration core

mish is a small Unix shell written in C. This project models three parts of it in Dafny and proves properties of the model:

- **The child-pid list** (`list.c`, `list.h`). This is a generic doubly linked list with two sentinels. The header node sits before the first element and the end node after the last. A position is a node reference.
  - The model is a `List<T>` class over `Node<T>` objects whose `next`, `prev` and `val` fields are rewritten in place, as in the C code.
  - Ghost fields give the abstract view:
    - `Nodes`: every node from `head` to `end`, in link order.
    - `Contents`: the values of the element nodes.
    - `Repr`: the footprint.
  - `Valid()` is the doubly-linked invariant: `n.next.prev == n` along the chain, `head.prev` and `end.next` are null, both sentinels hold NULL (`None`), and the list has no repeated node.
- **The signal bridge** (`sighant.c`).
  - `kill_children` walks the child list backwards and sends SIGINT once per element. It is modelled as a method that returns the trace of `kill` calls.
  - `shell_signal_handler` only reacts to SIGINT.
  - `setup_signal_handling` installs the handler unless SIGINT is ignored. It is modelled as an update of a disposition table.
- **The decision logic of the shell** (`mish.c`):
  - classifying a command line as built-ins (`cd`, `echo`);
  - running the built-ins and computing the text `echo` writes;
  - the reaping loop;
  - the pipe wiring of an n-stage pipeline: which stage creates a pipe, which ends each child duplicates onto stdin and stdout, which ends each child and the parent close, and which ends each process still holds;
  - the order and error return of a stage's file redirections.

Every operating-system call is an oracle: `kill`, `wait`, `pipe`, `open` and `dup2`. Its outcome is a nondeterministic choice. What the shell asked of it is returned as a trace or a plan, so the contracts can state what was asked, in which order, and what happens on failure. Pipes are named by the index of the stage that created them. A process's pipe descriptors are a set of `PipeEnd`s.

Files:
- `wrappers.dfy`: `Option`.
- `list.dfy`: module `LinkedList`.
- `sighant.dfy`: module `SignalHandling`.
- `mish.dfy`: module `Mish`.

Behaviours of the code that the model keeps as written:
- **Child registry.** `current_shell_children` (sighant.h:14) is never created or filled, and `wait_for_children` only counts. The model takes the list as a parameter of `KillChildren` and models no registration of pids.
- **Which pipe ends the child closes.** A child closes only the unused end of each pipe it uses: the write end of the input pipe and the read end of the output pipe (mish.c:238, mish.c:250).
- **Output-file flags.** The output file is opened with `O_WRONLY | O_CREAT`, without `O_TRUNC` (mish.c:318).
- **Failed waits.** Every `wait` call counts as one completed child, whether it failed or not; a failed call is not retried (mish.c:102-108).
- **Next and previous positions.** The `list.h` comments say next and previous positions are NULL for either sentinel. The code returns NULL only for `end` (next) and `head` (previous) (list.c:179-205).

Two behaviours of the code are stated as lemmas rather than corrected:
- `echo` with no argument writes its own name (`EchoAloneWritesName`).
- A line whose external commands all come before its built-ins is accepted as built-ins (`ExternalsThenBuiltinsAccepted`). The built-in runner then treats each of its external commands as `echo`.

## Model

| member | source | states |
|---|---|---|
| `LinkedList.List.Index` | list.h:24-25 | a position is a node of the list; `Index` gives its place in the head-to-end chain |
| `LinkedList.List.IndexUnique` | list.h:24-25 | a position occurs once in the chain, so its index is unique |
| `LinkedList.List.constructor` | list.c:30-60 | a new list is valid and empty; `head.next == end`, `end.prev == head`, `head.prev` and `end.next` are null, both sentinel values are NULL |
| `LinkedList.List.Add` | list.c:70-99 | adding after `end` returns null and changes nothing; otherwise it returns a fresh node holding `v`, placed right after `pos`; the contents become `s[..k] + [v] + s[k..]` for `k` the index of `pos`; the doubly-linked invariant is kept |
| `LinkedList.List.Append` | list.c:107-109 | the contents become `s + [v]`, and the new node sits just before `end` |
| `LinkedList.List.Swap` | list.c:116-120 | only the two `val` fields change; the chain of nodes is untouched; the contents have the two values exchanged |
| `LinkedList.SwapTwice` | list.h:51-56 | swapping the same two positions twice restores the contents |
| `LinkedList.List.IsEmpty` | list.c:127-134 | true exactly when the list holds no element |
| `LinkedList.List.GetValue` | list.c:143-145 | NULL for a sentinel; for an element, the value it stores |
| `LinkedList.List.First` | list.h:74-81 | returns the header sentinel, which is no added element and stores NULL |
| `LinkedList.List.Last` | list.h:83-90 | returns the end sentinel, which is no added element and stores NULL |
| `LinkedList.List.Next` | list.c:179-186 | null for `end`; otherwise the following node in the chain |
| `LinkedList.List.Previous` | list.c:198-205 | null for `head`; otherwise the preceding node in the chain |
| `LinkedList.List.Remove` | list.c:214-226 | on a sentinel it returns `head` and changes nothing; otherwise it unlinks exactly that node, keeps the other elements in order, returns its predecessor (`head` for the first element) and keeps the invariant |
| `LinkedList.DeleteUndoesInsert` | list.c:218-224 | deleting the element just inserted at index `k` restores the sequence |
| `LinkedList.InsertUndoesDelete` | list.c:87-95 | re-inserting a deleted element at its index restores the sequence |
| `LinkedList.RemoveThenAdd` | list.c:214-226 | removing an element and adding its value back after the position `list_remove_element` returned restores the contents; the node chain has the fresh node in the removed node's place |
| `LinkedList.AddThenRemove` | list.h:33-41 | removing the position `list_add` returned restores both the contents and the node chain, and returns the position added after |
| `LinkedList.List.Kill` | list.c:232-243 | the traversal releases every element node once, first to last, then `head` and `end`; it never releases a stored value |
| `SignalHandling.KillChildren` | sighant.c:42-58 | exactly one SIGINT `kill` per element, from last to first: the pid trace is the reverse of the list contents, so an empty list sends none; a failed `kill` is marked and the walk goes on; the list is only read |
| `SignalHandling.ReversedIndex` | sighant.c:48-56 | walking back from the last element visits element `|s|-1-i` at step `i` |
| `SignalHandling.ShellSignalHandler` | sighant.c:16-21 | on SIGINT, the pid trace of `kill_children`; for any other signal, no `kill` at all |
| `SignalHandling.SignalTable.SetupSignalHandling` | sighant.c:26-37 | if SIGINT was ignored, the table is unchanged; otherwise SIGINT now runs the shell handler; no other signal changes |
| `Mish.CheckForInternalCommands` | mish.c:114-127 | -1 exactly when some built-in is followed by an external command; otherwise the number of `cd`/`echo` commands; the result lies in [-1, n] |
| `Mish.CountInternalPositive` | mish.c:121-124 | the built-in count is positive exactly when some command is a built-in |
| `Mish.ExternalsThenBuiltinsAccepted` | mish.c:116-126 | externals followed only by built-ins are not rejected, and the count is the positive number of built-ins |
| `Mish.InternalEcho` | mish.c:187-202 | the text written is words `1..n-1` joined by single spaces plus a newline; with only one word, that word plus a newline |
| `Mish.JoinSnoc` | mish.c:190-198 | writing one more word adds a space and that word to the joined text |
| `Mish.EchoAloneWritesName` | mish.c:198 | an example of the one-word case of `EchoText` (already covered by `InternalEcho`): `echo` alone writes `echo` and a newline |
| `Mish.RunInternalCommands` | mish.c:132-141 | one action per command, in array order: `cd` (with its argument) exactly for commands named "cd", and for every other command `echo` with the text `EchoText` defines |
| `Mish.WaitForChildren` | mish.c:98-109 | exactly `n` calls to `wait` (none for `n <= 0`); each failed call is reported and still counted as a completed child |
| `Mish.FailedWaits` | mish.c:103-106 | the number of reported waits never exceeds the number of waits |
| `Mish.PipeAndForkCommands` | mish.c:207-279 | the `pipe` results are returned in call order: -1 is returned exactly when the last `pipe` call failed, and every earlier call succeeded; `n` is returned exactly when all `max(n-1, 0)` calls succeeded, every stage was forked, and the parent then holds no pipe end; on -1, `pipe` failed at stage `|plan|` (a stage `i < n-1`), before that stage is forked, and the parent still holds the previous pipe; every forked stage meets `StageWired`: pipe `i` is created iff `i < n-1`, stdin is pipe `i-1` iff `i != 0`, stdout is pipe `i` iff `i != n-1`, the child uses only open ends and keeps exactly those two, it then runs its own command, and the parent closes both ends of pipe `i-1` iff `i != 0` |
| `Mish.WiredStage` | mish.c:228-272 | the child steps and parent closes one loop iteration builds meet `StageWired` |
| `Mish.PipelineConnected` | mish.c:231-254 | in a fully built pipeline, stage `i` writes into pipe `i` and stage `i+1` reads from it; the first stage keeps the shell's stdin and the last its stdout |
| `Mish.SoleHolders` | mish.c:238-270 | once the parent has closed its copies, the write end of pipe `p` is held only by stage `p` and its read end only by stage `p+1` |
| `Mish.PipeCount` | mish.c:215-221 | a fully built n-stage pipeline creates exactly `n-1` pipes |
| `Mish.CreatedPipesPrefix` | mish.c:213-221 | the first `k` stages create `min(k, n-1)` pipes |
| `Mish.RedirectExternalCommand` | mish.c:306-325 | redirections are attempted in order: the input file (read-only, onto stdin), then the output file (`O_WRONLY|O_CREAT`, onto stdout); an absent file is skipped; the first failure stops with -1, and otherwise the result is 0 |

## Left out

- Real effects of `fork`, `execvp`, `pipe`, `dup2`, `open`, `close`, `wait`, `kill` and `printf`. They are oracles whose results are nondeterministic. The model records what is asked of them.
- `fork` failure: the code calls `exit(1)` (mish.c:224-226). The model assumes every fork succeeds.
- `calloc` failure in `list_new` and `list_add`: the code calls `exit(errno)` (list.c:32-48, list.c:80-84). Dafny allocation cannot fail, so the model has no such path.
- The child's `return -1` fall-through into the parent loop after a failed `dupPipe` or `exec` (mish.c:236, mish.c:248, mish.c:257). Each child's `dup2` is assumed to succeed.
- `close` failures: they are only reported by the code, and the model treats every close as done.
- `execute_external_command` (mish.c:284-296). It is the `Execute` step of a child. Its redirection part is `RedirectExternalCommand`, and `execvp` is not modelled.
- execute.c (`dupPipe`, `redirect`). It is not part of this model beyond being the oracle behind each duplication and redirection. The `end > 1 || destfd > 2` guard of `dupPipe` always passes for the ends and descriptors the wiring uses.
- `internal_cd` and `get_home_directory` (`chdir`, `getpwuid`). `RunInternalCommands` records only the directory argument `cd` receives.
- `printf` failures in `internal_echo`. They are only reported; `InternalEcho` gives the text the shell asks to be written.
- The `main` prompt loop (reading lines, EOF handling) and `parse`, which is not part of this model.
- Asynchronous delivery of SIGINT, the `sa_mask`/`sa_flags` fields of `sigaction`, and any race between the handler and list updates. The model has only the sequential traversal and the disposition decision.
- The global `current_shell_children` (sighant.h:14). It is passed to `KillChildren` as a parameter. The code never creates it or adds a pid to it, so registration and reaping by pid are not modelled. mish.c never includes sighant.h or calls `setup_signal_handling`, so the handler is never installed. If it were, `kill_children` would pass the NULL global to the list functions (sighant.c:43) and dereference it. `KillChildren`'s `requires children.Valid()` therefore stands for a list the code never creates.
- `free` in `list_remove_element` and `list_kill`. Dafny has no deallocation. `Kill` is the traversal with the order of release, and `Remove` drops the node from `Repr`. The final `free(l)` of the list object (list.c:242) is not recorded.
- `LinkedList.List.Swap`: requires both positions to be elements. Swapping a sentinel's NULL value into an element position would break the sentinel invariant `Valid()` relies on. The C code allows it, but no caller in mish.c or sighant.c does it.
- `LinkedList.List.Add` and `LinkedList.List.Remove`: `pos` must be a position of the list, as the interface documents it (list.h:36-38, list.h:119-120). Given another list's element node, the C code silently edits that other list, because `l` is used only for the sentinel tests and the returned `head` (list.c:72, list.c:215-216). The same holds for `list_add` given another list's header. Given another list's end, `list_add` dereferences NULL (list.c:95). `list_remove_element` dereferences NULL given another list's header (list.c:220) or end (list.c:221). A freed node is a use-after-free. No caller in mish.c or sighant.c does any of these.
- Integer widths. Pids, counts and descriptors are unbounded integers. No arithmetic in the modelled code can overflow for a pipeline of at most `MAXCOMMANDS` stages.

=== FILE: list.dfy ===
/**
 * The generic two-sentinel doubly linked list of list.c / list.h.
 *
 * A list is a pair of distinct sentinel nodes, `head` and `end`; the elements
 * are the nodes strictly between them.  A position is a node reference.  The
 * abstract view is the ghost sequence `Nodes` (every node from `head` to `end`,
 * in link order) and the ghost sequence `Contents` (the values of the element
 * nodes).  A node's `val` is `None` for the two sentinels (the C code stores
 * NULL there) and `Some(v)` for an element holding `v`.
 */
module LinkedList {
  import opened Wrappers

  /** `s` with `x` inserted so that it lands at index `k`. */
  function Insert<T>(s: seq<T>, k: nat, x: T): (r: seq<T>)
    requires k <= |s|
    ensures |r| == |s| + 1 && r[k] == x
    ensures forall i {:trigger r[i]} :: 0 <= i < k ==> r[i] == s[i]
    ensures forall i :: k < i < |r| ==> r[i] == s[i - 1]
  {
    s[..k] + [x] + s[k..]
  }

  /** `s` without its element at index `k`. */
  function Delete<T>(s: seq<T>, k: nat): (r: seq<T>)
    requires k < |s|
    ensures |r| == |s| - 1
    ensures forall i {:trigger r[i]} :: 0 <= i < k ==> r[i] == s[i]
    ensures forall i :: k <= i < |r| ==> r[i] == s[i + 1]
  {
    s[..k] + s[k + 1..]
  }

  /** `s` with the elements at indices `i` and `j` exchanged. */
  function SwapAt<T>(s: seq<T>, i: nat, j: nat): (r: seq<T>)
    requires i < |s| && j < |s|
    ensures |r| == |s| && r[i] == s[j] && r[j] == s[i]
    ensures forall k :: 0 <= k < |s| && k != i && k != j ==> r[k] == s[k]
  {
    s[i := s[j]][j := s[i]]
  }

  /** Removing the element that was just inserted gives back the original sequence. */
  lemma DeleteUndoesInsert<T>(s: seq<T>, k: nat, x: T)
    requires k <= |s|
    ensures Delete(Insert(s, k, x), k) == s
  {
    var t := Delete(Insert(s, k, x), k);
    assert forall i :: 0 <= i < |s| ==> t[i] == s[i];
  }

  /** Re-inserting a removed element at its old index gives back the original sequence. */
  lemma InsertUndoesDelete<T>(s: seq<T>, k: nat)
    requires k < |s|
    ensures Insert(Delete(s, k), k, s[k]) == s
  {
    var t := Insert(Delete(s, k), k, s[k]);
    assert forall i :: 0 <= i < |s| ==> t[i] == s[i];
  }

  /** Swapping the same two positions twice is the identity. */
  lemma SwapTwice<T>(s: seq<T>, i: nat, j: nat)
    requires i < |s| && j < |s|
    ensures SwapAt(SwapAt(s, i, j), i, j) == s
  {
    var t := SwapAt(SwapAt(s, i, j), i, j);
    assert forall k :: 0 <= k < |s| ==> t[k] == s[k];
  }

  /** No element of `s` occurs twice. */
  ghost predicate Distinct<T>(s: seq<T>)
  {
    forall i, j :: 0 <= i < j < |s| ==> s[i] != s[j]
  }

  /** Inserting an element that does not occur keeps a sequence free of repetition. */
  lemma DistinctInsert<T>(s: seq<T>, k: nat, x: T)
    requires k <= |s| && Distinct(s) && x !in s
    ensures Distinct(Insert(s, k, x))
  {
    var t := Insert(s, k, x);
    forall i, j | 0 <= i < j < |t|
      ensures t[i] != t[j]
    {
      if j < k {
      } else if i > k {
      } else if i < k < j {
        assert t[i] == s[i] && t[j] == s[j - 1];
      }
    }
  }

  /** Deleting an element keeps a sequence free of repetition. */
  lemma DistinctDelete<T>(s: seq<T>, k: nat)
    requires k < |s| && Distinct(s)
    ensures Distinct(Delete(s, k))
  {
    var t := Delete(s, k);
    forall i, j | 0 <= i < j < |t|
      ensures t[i] != t[j]
    {
      if j < k {
      } else if i >= k {
        assert t[i] == s[i + 1] && t[j] == s[j + 1];
      } else {
        assert t[i] == s[i] && t[j] == s[j + 1];
      }
    }
  }

  /**
   * Along `s`, every node's `next` is its successor and every node's `prev`
   * is its predecessor.
   */
  ghost predicate Linked<T>(s: seq<Node<T>>)
    reads s
  {
    && (forall i {:trigger s[i].next} :: 0 <= i < |s| - 1 ==> s[i].next == s[i + 1])
    && (forall i {:trigger s[i].prev} :: 0 < i < |s| ==> s[i].prev == s[i - 1])
  }

  /** The inner nodes of `s` (all but the first and the last) hold `c`, in order. */
  ghost predicate Stores<T>(s: seq<Node<T>>, c: seq<T>)
    reads s
  {
    && |c| == |s| - 2
    && (forall i :: 0 <= i < |c| ==> s[i + 1].val == Some(c[i]))
  }

  /** A list node (`struct node`). */
  class Node<T> {
    var next: Node?<T>
    var prev: Node?<T>
    var val: Option<T>

    constructor (val: Option<T>, prev: Node?<T>, next: Node?<T>)
      ensures this.val == val && this.prev == prev && this.next == next
    {
      this.val := val;
      this.prev := prev;
      this.next := next;
    }
  }

  /** A list (`struct list`): the header and end sentinels. */
  class List<T> {
    var head: Node<T>
    var end: Node<T>

    ghost var Nodes: seq<Node<T>>
    ghost var Contents: seq<T>
    ghost var Repr: set<object>

    /**
     * The doubly-linked invariant: `Nodes` runs from `head` to `end` without
     * repetition, every node's `next` is its successor and its successor's
     * `prev` points back to it, `head.prev` and `end.next` are null, the
     * sentinels hold no value, and the element nodes hold `Contents` in order.
     */
    ghost predicate Valid()
      reads this, Repr
    {
      && this in Repr
      && 2 <= |Nodes|
      && Nodes[0] == head
      && Nodes[|Nodes| - 1] == end
      && (forall i :: 0 <= i < |Nodes| ==> Nodes[i] in Repr)
      && Distinct(Nodes)
      && head.prev == null
      && end.next == null
      && Linked(Nodes)
      && head.val == None
      && end.val == None
      && Stores(Nodes, Contents)
    }

    /** The index of position `p` in `Nodes` (0 is `head`). */
    ghost function Index(p: Node<T>): (k: nat)
      reads this, Repr
      requires Valid() && p in Nodes
      ensures k < |Nodes| && Nodes[k] == p
    {
      var k :| 0 <= k < |Nodes| && Nodes[k] == p; k
    }

    /** A position occurs once in the chain: `Index(p)` is its only index. */
    lemma IndexUnique(p: Node<T>, j: nat)
      requires Valid() && j < |Nodes| && Nodes[j] == p
      ensures j == Index(p)
    {
    }

    /** `list_new`: an empty list whose two sentinels point at each other. */
    constructor ()
      ensures Valid() && fresh(Repr)
      ensures Contents == [] && Nodes == [head, end]
      ensures head.next == end && end.prev == head
      ensures head.prev == null && end.next == null && head.val == None && end.val == None
    {
      var h := new Node(None, null, null);
      var e := new Node(None, h, null);
      h.next := e;
      head, end := h, e;
      Nodes := [h, e];
      Contents := [];
      Repr := {this, h, e};
    }

    /**
     * `list_add`: insert `v` after position `pos`.  Adding after `end` returns
     * null and changes nothing; otherwise the new node is returned and its value
     * lands at index `Index(pos)` of `Contents`, so adding after `head` makes it
     * the first element.
     */
    method Add(v: T, pos: Node<T>) returns (r: Node?<T>)
      requires Valid() && pos in Nodes
      modifies Repr
      ensures Valid() && fresh(Repr - old(Repr))
      ensures head == old(head) && end == old(end)
      ensures pos == end ==> r == null && Nodes == old(Nodes) && Contents == old(Contents)
      ensures pos != end ==>
        && r != null && fresh(r) && r.val == Some(v)
        && Nodes == Insert(old(Nodes), old(Index(pos)) + 1, r)
        && Contents == Insert(old(Contents), old(Index(pos)), v)
    {
      if pos == end {
        return null;
      }
      ghost var k := Index(pos);
      assert k < |Nodes| - 1;
      var after := pos.next;
      assert after == Nodes[k + 1] && after != head;
      r := new Node(Some(v), pos, after);
      pos.next := r;
      after.prev := r;
      Nodes := Insert(Nodes, k + 1, r);
      Contents := Insert(Contents, k, v);
      Repr := Repr + {r};
      SpliceKeepsValid(k);
    }

    /**
     * The state `Add` leaves behind is valid: a new node holding the value
     * inserted at index `k` of `Contents` has been linked in between the nodes at indices `k` and `k + 1`, and no other
     * field of an old node has changed.
     */
    twostate lemma SpliceKeepsValid(k: nat)
      requires old(Valid()) && k + 1 < |old(Nodes)| && |Nodes| == |old(Nodes)| + 1
      requires head == old(head) && end == old(end) && Nodes[k + 1].val.Some?
      requires Nodes == Insert(old(Nodes), k + 1, Nodes[k + 1])
      requires Contents == Insert(old(Contents), k, Nodes[k + 1].val.value)
      requires Nodes[k + 1] !in old(Repr) && Repr == old(Repr) + {Nodes[k + 1]}
      requires Nodes[k + 1].prev == old(Nodes[k]) && Nodes[k + 1].next == old(Nodes[k + 1])
      requires old(Nodes[k]).next == Nodes[k + 1] && old(Nodes[k + 1]).prev == Nodes[k + 1]
      requires forall i :: 0 <= i < |old(Nodes)| ==> old(Nodes)[i].val == old(Nodes[i].val)
      requires forall i :: 0 <= i < |old(Nodes)| && old(Nodes)[i] != old(Nodes[k]) ==> old(Nodes)[i].next == old(Nodes[i].next)
      requires forall i :: 0 <= i < |old(Nodes)| && old(Nodes)[i] != old(Nodes[k + 1]) ==> old(Nodes)[i].prev == old(Nodes[i].prev)
      ensures Valid()
    {
      var s, c := old(Nodes), old(Contents);
      assert forall i :: 0 <= i < |Nodes| ==> Nodes[i] in Repr;
      DistinctInsert(s, k + 1, Nodes[k + 1]);
      assert Stores(Nodes, Contents) by {
        forall i | 0 <= i < |Contents|
          ensures Nodes[i + 1].val == Some(Contents[i])
        {
          if i < k {
            assert Nodes[i + 1] == s[i + 1] && Contents[i] == c[i];
          } else if k < i {
            assert Nodes[i + 1] == s[i] && Contents[i] == c[i - 1];
          }
        }
      }
      assert Linked(Nodes) by {
        forall i | 0 <= i < |Nodes| - 1
          ensures Nodes[i].next == Nodes[i + 1]
        {
          if i < k {
            assert Nodes[i] == s[i] != s[k] && Nodes[i + 1] == s[i + 1];
          } else if k + 1 < i {
            assert Nodes[i] == s[i - 1] != s[k] && Nodes[i + 1] == s[i];
          }
        }
        forall i | 0 < i < |Nodes|
          ensures Nodes[i].prev == Nodes[i - 1]
        {
          if i <= k {
            assert Nodes[i] == s[i] != s[k + 1] && Nodes[i - 1] == s[i - 1];
          } else if k + 2 < i {
            assert Nodes[i] == s[i - 1] != s[k + 1] && Nodes[i - 1] == s[i - 2];
          }
        }
      }
    }

    /** `list_append`: add `v` after the last element, i.e. before `end`. */
    method Append(v: T) returns (r: Node<T>)
      requires Valid()
      modifies Repr
      ensures Valid() && fresh(Repr - old(Repr))
      ensures head == old(head) && end == old(end)
      ensures fresh(r) && r.val == Some(v)
      ensures Nodes == Insert(old(Nodes), |old(Nodes)| - 1, r)
      ensures Contents == old(Contents) + [v]
    {
      var last := end.prev;
      assert last == Nodes[|Nodes| - 2];
      r := Add(v, last);
    }

    /**
     * `list_swap`: exchange the values stored at two element positions; the
     * links are not touched.
     */
    method Swap(p: Node<T>, q: Node<T>)
      requires Valid() && p in Nodes && q in Nodes
      requires p != head && p != end && q != head && q != end
      modifies p`val, q`val, this`Contents
      ensures Valid()
      ensures Contents == SwapAt(old(Contents), old(Index(p)) - 1, old(Index(q)) - 1)
    {
      ghost var i, j := Index(p) - 1, Index(q) - 1;
      var temp := p.val;
      p.val := q.val;
      q.val := temp;
      Contents := SwapAt(Contents, i, j);
    }

    /** `list_is_empty`: true exactly when the list holds no element. */
    method IsEmpty() returns (b: bool)
      requires Valid()
      ensures b <==> Contents == []
    {
      b := head.next == end;
      assert |Nodes| > 2 ==> head.next == Nodes[1] && Nodes[1] != end;
    }

    /**
     * `list_get_value`: the value stored at `pos`; `None` (NULL) for the two
     * sentinels.
     */
    method GetValue(pos: Node<T>) returns (v: Option<T>)
      requires Valid() && pos in Nodes
      ensures pos == head || pos == end ==> v == None
      ensures pos != head && pos != end ==> 1 <= Index(pos) <= |Contents| && v == Some(Contents[Index(pos) - 1])
    {
      v := pos.val;
    }

    /** `list_get_first_position`: the header sentinel, which is no element. */
    method First() returns (p: Node<T>)
      requires Valid()
      ensures p == Nodes[0] && p.val == None
      ensures forall i :: 0 < i < |Nodes| ==> Nodes[i] != p
    {
      p := head;
    }

    /** `list_get_last_position`: the end sentinel, which is no element. */
    method Last() returns (p: Node<T>)
      requires Valid()
      ensures p == Nodes[|Nodes| - 1] && p.val == None
      ensures forall i :: 0 <= i < |Nodes| - 1 ==> Nodes[i] != p
    {
      p := end;
    }

    /**
     * `list_get_next_position`: null for `end`, otherwise the following node.
     * As written, the header sentinel yields the first node (or `end`).
     */
    method Next(pos: Node<T>) returns (r: Node?<T>)
      requires Valid() && pos in Nodes
      ensures pos == end ==> r == null
      ensures pos != end ==> Index(pos) + 1 < |Nodes| && r == Nodes[Index(pos) + 1]
    {
      if pos == end {
        r := null;
      } else {
        r := pos.next;
      }
    }

    /**
     * `list_get_previous_position`: null for `head`, otherwise the preceding
     * node.  As written, the end sentinel yields the last node (or `head`).
     */
    method Previous(pos: Node<T>) returns (r: Node?<T>)
      requires Valid() && pos in Nodes
      ensures pos == head ==> r == null
      ensures pos != head ==> 0 < Index(pos) && r == Nodes[Index(pos) - 1]
    {
      if pos == head {
        r := null;
      } else {
        r := pos.prev;
      }
    }

    /**
     * `list_remove_element`: unlink the element at `pos` and return the node
     * before it (`head` when it was the first element).  Asked to remove a
     * sentinel, it returns `head` and changes nothing.  The stored value is
     * not released.
     */
    method Remove(pos: Node<T>) returns (r: Node<T>)
      requires Valid() && pos in Nodes
      modifies Repr
      ensures Valid() && Repr <= old(Repr)
      ensures head == old(head) && end == old(end)
      ensures pos == head || pos == end ==> r == head && Nodes == old(Nodes) && Contents == old(Contents)
      ensures pos != head && pos != end ==>
        && 0 < old(Index(pos)) < |old(Nodes)| - 1
        && r == old(Nodes)[old(Index(pos)) - 1]
        && Nodes == Delete(old(Nodes), old(Index(pos)))
        && Contents == Delete(old(Contents), old(Index(pos)) - 1)
    {
      if pos == head || pos == end {
        return head;
      }
      ghost var k := Index(pos);
      assert 0 < k < |Nodes| - 1;
      assert pos.prev == Nodes[k - 1] && pos.next == Nodes[k + 1];
      assert Nodes[k + 1] != head && Nodes[k - 1] != end;
      r := pos.prev;
      pos.prev.next := pos.next;
      pos.next.prev := pos.prev;
      Nodes := Delete(Nodes, k);
      Contents := Delete(Contents, k - 1);
      Repr := Repr - {pos};
      UnlinkKeepsValid(k);
    }

    /**
     * The state `Remove` leaves behind is valid: the nodes at indices `k - 1`
     * and `k + 1` have been linked to each other, the node at `k` has left the
     * chain and the footprint, and no other field of an old node has changed.
     */
    twostate lemma UnlinkKeepsValid(k: nat)
      requires old(Valid()) && 0 < k < |old(Nodes)| - 1
      requires head == old(head) && end == old(end)
      requires Nodes == Delete(old(Nodes), k) && Contents == Delete(old(Contents), k - 1)
      requires Repr == old(Repr) - {old(Nodes[k])}
      requires old(Nodes[k - 1]).next == old(Nodes[k + 1]) && old(Nodes[k + 1]).prev == old(Nodes[k - 1])
      requires forall i :: 0 <= i < |old(Nodes)| ==> old(Nodes)[i].val == old(Nodes[i].val)
      requires forall i :: 0 <= i < |old(Nodes)| && old(Nodes)[i] != old(Nodes[k - 1]) ==> old(Nodes)[i].next == old(Nodes[i].next)
      requires forall i :: 0 <= i < |old(Nodes)| && old(Nodes)[i] != old(Nodes[k + 1]) ==> old(Nodes)[i].prev == old(Nodes[i].prev)
      ensures Valid()
    {
      var s := old(Nodes);
      assert forall i :: 0 <= i < |Nodes| ==> Nodes[i] in Repr by {
        forall i | 0 <= i < |Nodes|
          ensures Nodes[i] in Repr
        {
          assert Nodes[i] == (if i < k then s[i] else s[i + 1]) != s[k];
        }
      }
      DistinctDelete(s, k);
      var c := old(Contents);
      assert Stores(Nodes, Contents) by {
        forall i | 0 <= i < |Contents|
          ensures Nodes[i + 1].val == Some(Contents[i])
        {
          if i < k - 1 {
            assert Nodes[i + 1] == s[i + 1] && Contents[i] == c[i];
          } else {
            assert Nodes[i + 1] == s[i + 2] && Contents[i] == c[i + 1];
          }
        }
      }
      assert Linked(Nodes) by {
        forall i | 0 <= i < |Nodes| - 1
          ensures Nodes[i].next == Nodes[i + 1]
        {
          if i < k - 1 {
            assert Nodes[i] == s[i] != s[k - 1] && Nodes[i + 1] == s[i + 1];
          } else if k <= i {
            assert Nodes[i] == s[i + 1] != s[k - 1] && Nodes[i + 1] == s[i + 2];
          }
        }
        forall i | 0 < i < |Nodes|
          ensures Nodes[i].prev == Nodes[i - 1]
        {
          if i < k {
            assert Nodes[i] == s[i] != s[k + 1] && Nodes[i - 1] == s[i - 1];
          } else if k < i {
            assert Nodes[i] == s[i + 1] != s[k + 1] && Nodes[i - 1] == s[i];
          }
        }
      }
    }

    /**
     * `list_kill` as a traversal: the nodes it releases, in order (every
     * element node from first to last, then `head`, then `end`).  The stored
     * values are never released.
     */
    method Kill() returns (released: seq<Node<T>>)
      requires Valid()
      ensures released == Nodes[1..|Nodes| - 1] + [head, end]
    {
      var current := head.next;
      released := [];
      ghost var i := 1;
      while current != end
        invariant 1 <= i < |Nodes| && current == Nodes[i]
        invariant released == Nodes[1..i]
        decreases |Nodes| - i
      {
        released := released + [current];
        current := current.next;
        i := i + 1;
      }
      released := released + [head, end];
    }
  }

  /**
   * Removing the position `list_add` returned gives back the original
   * elements and nodes, and `list_remove_element` hands back the position the
   * element was added after.
   */
  method AddThenRemove<T>(l: List<T>, v: T, pos: Node<T>) returns (back: Node?<T>)
    requires l.Valid() && pos in l.Nodes && pos != l.end
    modifies l.Repr
    ensures l.Valid()
    ensures l.Contents == old(l.Contents) && l.Nodes == old(l.Nodes)
    ensures back == pos
  {
    ghost var k := l.Index(pos);
    ghost var nodes, values := l.Nodes, l.Contents;
    var added := l.Add(v, pos);
    assert l.Nodes[k + 1] == added;
    assert l.Index(added) == k + 1;
    back := l.Remove(added);
    assert back == pos;
    assert l.Contents == values by {
      DeleteUndoesInsert(values, k, v);
    }
    assert l.Nodes == nodes by {
      DeleteUndoesInsert(nodes, k + 1, added);
    }
  }

  /**
   * Removing an element and adding its value back after the node `Remove`
   * returned restores the contents; the chain has a fresh node where the
   * removed one was.
   */
  method RemoveThenAdd<T>(l: List<T>, pos: Node<T>) returns (added: Node?<T>)
    requires l.Valid() && pos in l.Nodes && pos != l.head && pos != l.end
    modifies l.Repr
    ensures l.Valid()
    ensures l.Contents == old(l.Contents)
    ensures added != null && fresh(added) && added.val == old(pos.val)
    ensures l.Nodes == old(l.Nodes)[old(l.Index(pos)) := added]
  {
    ghost var k := l.Index(pos);
    ghost var nodes, values := l.Nodes, l.Contents;
    var value := l.GetValue(pos);
    var before := l.Remove(pos);
    assert l.Nodes[k - 1] == before != l.end;
    assert l.Index(before) == k - 1;
    added := l.Add(value.value, before);
    assert l.Contents == values by {
      InsertUndoesDelete(values, k - 1);
    }
    assert l.Nodes == nodes[k := added] by {
      assert forall i :: 0 <= i < |nodes| ==> l.Nodes[i] == nodes[k := added][i];
    }
  }
}

=== FILE: mish.dfy ===
/**
 * The sequential decision logic of mish.c: which parsed command lines are
 * run as built-ins, the text `echo` writes, the reaping loop, the pipe
 * wiring of a pipeline and the file redirections of one stage.
 *
 * Every operating-system call (`wait`, `pipe`, `fork`, `dup2`, `close`,
 * `open`, `printf`) is an oracle: its outcome is a nondeterministic choice,
 * and what the shell asked of it is recorded in a returned trace or plan.
 */
module Mish {
  import opened Wrappers

  /** A parsed command: its argument vector and optional redirection files. */
  datatype Command = Command(argv: seq<string>, infile: Option<string>, outfile: Option<string>)

  /** The parser always yields a non-empty argument vector. */
  predicate WellFormed(c: Command)
  {
    |c.argv| >= 1
  }

  predicate AllWellFormed(cmds: seq<Command>)
  {
    forall i :: 0 <= i < |cmds| ==> WellFormed(cmds[i])
  }

  // ---------------------------------------------------------------------
  // Built-in commands
  // ---------------------------------------------------------------------

  /** A command the shell runs itself: `cd` or `echo`. */
  predicate IsInternal(c: Command)
  {
    |c.argv| >= 1 && (c.argv[0] == "cd" || c.argv[0] == "echo")
  }

  /** Some built-in is followed, later in the line, by an external command. */
  ghost predicate InternalBeforeExternal(cmds: seq<Command>)
  {
    exists i, j :: 0 <= i < j < |cmds| && IsInternal(cmds[i]) && !IsInternal(cmds[j])
  }

  /** The number of built-in commands in `cmds`. */
  function CountInternal(cmds: seq<Command>): (count: nat)
  {
    if |cmds| == 0 then 0
    else CountInternal(cmds[..|cmds| - 1]) + (if IsInternal(cmds[|cmds| - 1]) then 1 else 0)
  }

  /** The count is positive exactly when some command is a built-in. */
  lemma {:induction false} CountInternalPositive(cmds: seq<Command>)
    ensures CountInternal(cmds) > 0 <==> exists h :: 0 <= h < |cmds| && IsInternal(cmds[h])
  {
    if |cmds| > 0 {
      var front := cmds[..|cmds| - 1];
      CountInternalPositive(front);
      if exists h :: 0 <= h < |front| && IsInternal(front[h]) {
        var h :| 0 <= h < |front| && IsInternal(front[h]);
        assert cmds[h] == front[h];
      }
      if exists h :: 0 <= h < |cmds| && IsInternal(cmds[h]) {
        var h :| 0 <= h < |cmds| && IsInternal(cmds[h]);
        if h < |front| {
          assert front[h] == cmds[h];
        }
      }
    }
  }

  /** No more built-ins than commands. */
  lemma {:induction false} CountInternalBound(cmds: seq<Command>)
    ensures CountInternal(cmds) <= |cmds|
  {
    if |cmds| > 0 {
      CountInternalBound(cmds[..|cmds| - 1]);
    }
  }

  /**
   * `check_for_internal_commands`: -1 as soon as an external command follows
   * a built-in; otherwise the number of built-ins.  The result lies in
   * [-1, |cmds|].
   */
  method CheckForInternalCommands(cmds: seq<Command>) returns (r: int)
    requires AllWellFormed(cmds)
    ensures r == -1 <==> InternalBeforeExternal(cmds)
    ensures r != -1 ==> r == CountInternal(cmds)
    ensures -1 <= r <= |cmds|
  {
    var internalCommands := 0;
    for i := 0 to |cmds|
      invariant internalCommands == CountInternal(cmds[..i])
      invariant !InternalBeforeExternal(cmds[..i])
    {
      assert cmds[..i + 1][..i] == cmds[..i];
      if cmds[i].argv[0] == "cd" || cmds[i].argv[0] == "echo" {
        internalCommands := internalCommands + 1;
      } else if internalCommands > 0 {
        CountInternalPositive(cmds[..i]);
        var h :| 0 <= h < i && IsInternal(cmds[..i][h]);
        assert IsInternal(cmds[h]) && !IsInternal(cmds[i]);
        return -1;
      } else {
        CountInternalPositive(cmds[..i]);
        assert forall a :: 0 <= a < i + 1 ==> cmds[..i + 1][a] == cmds[a] && !IsInternal(cmds[a]);
      }
    }
    assert cmds[..|cmds|] == cmds;
    CountInternalBound(cmds);
    r := internalCommands;
  }

  /**
   * A line whose external commands all come before its built-ins is not
   * rejected: the check reports a positive count, so such a line is handed
   * to the built-in runner as a whole.
   */
  lemma {:induction false} ExternalsThenBuiltinsAccepted(cmds: seq<Command>, k: nat)
    requires k < |cmds|
    requires forall i :: 0 <= i < k ==> !IsInternal(cmds[i])
    requires forall i :: k <= i < |cmds| ==> IsInternal(cmds[i])
    ensures !InternalBeforeExternal(cmds)
    ensures CountInternal(cmds) == |cmds| - k > 0
  {
    CountSuffix(cmds, k);
  }

  lemma {:induction false} CountSuffix(cmds: seq<Command>, k: nat)
    requires k <= |cmds|
    requires forall i :: 0 <= i < k ==> !IsInternal(cmds[i])
    requires forall i :: k <= i < |cmds| ==> IsInternal(cmds[i])
    ensures CountInternal(cmds) == |cmds| - k
  {
    if |cmds| > 0 {
      var front := cmds[..|cmds| - 1];
      if k == |cmds| {
        CountSuffix(front, k - 1);
      } else {
        CountSuffix(front, k);
      }
    }
  }

  /** Words joined by single spaces. */
  function Join(words: seq<string>): (text: string)
    requires |words| >= 1
  {
    if |words| == 1 then words[0] else words[0] + " " + Join(words[1..])
  }

  /** Joining one more word adds a space and that word at the end. */
  lemma {:induction false} JoinSnoc(words: seq<string>, w: string)
    requires |words| >= 1
    ensures Join(words + [w]) == Join(words) + " " + w
  {
    if |words| > 1 {
      assert (words + [w])[1..] == words[1..] + [w];
      JoinSnoc(words[1..], w);
    }
  }

  /**
   * The text `echo` writes: its arguments joined by single spaces and a
   * newline.  With no argument the word in position 0 (the name "echo"
   * itself) is written.
   */
  function EchoText(argv: seq<string>): (text: string)
    requires |argv| >= 1
  {
    (if |argv| == 1 then argv[0] else Join(argv[1..])) + "\n"
  }

  /**
   * `internal_echo`: writes every word but the last followed by a space, then
   * the last word and a newline, starting at word 1.
   */
  method InternalEcho(message: seq<string>) returns (out: string)
    requires |message| >= 1
    ensures out == EchoText(message)
  {
    var words := |message|;
    out := "";
    var i := 1;
    while i < words - 1
      invariant 1 <= i <= (if words >= 2 then words - 1 else 1)
      invariant i == 1 ==> out == ""
      invariant i > 1 ==> out == Join(message[1..i]) + " "
    {
      if i > 1 {
        JoinSnoc(message[1..i], message[i]);
        assert message[1..i] + [message[i]] == message[1..i + 1];
      }
      out := out + message[i] + " ";
      i := i + 1;
    }
    if i > 1 {
      JoinSnoc(message[1..i], message[i]);
      assert message[1..i] + [message[i]] == message[1..];
    }
    out := out + message[words - 1] + "\n";
  }

  /** Writing "echo" alone writes the word "echo" back. */
  lemma EchoAloneWritesName()
    ensures EchoText(["echo"]) == "echo\n"
  {
  }

  /** The argument `cd` is given: word 1 when present, otherwise NULL. */
  function CdArgument(argv: seq<string>): (dir: Option<string>)
  {
    if |argv| >= 2 then Some(argv[1]) else None
  }

  /** What one built-in does: change directory, or write a text. */
  datatype InternalAction = ChangeDir(dir: Option<string>) | Echo(text: string)

  /**
   * `run_internal_commands`: in array order, `cd` for a command named "cd"
   * and `echo` for every other command (whatever its name).
   */
  method RunInternalCommands(cmds: seq<Command>) returns (actions: seq<InternalAction>)
    requires AllWellFormed(cmds)
    ensures |actions| == |cmds|
    ensures forall i :: 0 <= i < |cmds| ==> (actions[i].ChangeDir? <==> cmds[i].argv[0] == "cd")
    ensures forall i :: 0 <= i < |cmds| && cmds[i].argv[0] == "cd" ==>
      actions[i] == ChangeDir(CdArgument(cmds[i].argv))
    ensures forall i :: 0 <= i < |cmds| && cmds[i].argv[0] != "cd" ==>
      actions[i] == Echo(EchoText(cmds[i].argv))
  {
    actions := [];
    for i := 0 to |cmds|
      invariant |actions| == i
      invariant forall k :: 0 <= k < i && cmds[k].argv[0] == "cd" ==> actions[k] == ChangeDir(CdArgument(cmds[k].argv))
      invariant forall k :: 0 <= k < i && cmds[k].argv[0] != "cd" ==> actions[k] == Echo(EchoText(cmds[k].argv))
    {
      if cmds[i].argv[0] == "cd" {
        actions := actions + [ChangeDir(CdArgument(cmds[i].argv))];
      } else {
        var text := InternalEcho(cmds[i].argv);
        actions := actions + [Echo(text)];
      }
    }
  }

  // ---------------------------------------------------------------------
  // Reaping
  // ---------------------------------------------------------------------

  /** How many of the `wait` results report an error. */
  function FailedWaits(results: seq<int>): (count: nat)
    ensures count <= |results|
  {
    if |results| == 0 then 0
    else FailedWaits(results[..|results| - 1]) + (if results[|results| - 1] < 0 then 1 else 0)
  }

  /**
   * `wait_for_children`: exactly `numOfChildren` calls to `wait` (none for a
   * non-positive count); a failed wait is reported and still counted as a
   * completed child.  Returns the `wait` results and how many were reported.
   */
  method WaitForChildren(numOfChildren: int) returns (results: seq<int>, reported: nat)
    ensures |results| == if numOfChildren > 0 then numOfChildren else 0
    ensures reported == FailedWaits(results)
  {
    var numOfCompletedChildren := 0;
    results := [];
    reported := 0;
    while numOfCompletedChildren < numOfChildren
      invariant numOfCompletedChildren == |results|
      invariant numOfChildren > 0 ==> numOfCompletedChildren <= numOfChildren
      invariant numOfChildren <= 0 ==> numOfCompletedChildren == 0
      invariant reported == FailedWaits(results)
    {
      var completeChild: int := *;
      if completeChild < 0 {
        reported := reported + 1;
      }
      assert (results + [completeChild])[..|results|] == results;
      results := results + [completeChild];
      numOfCompletedChildren := numOfCompletedChildren + 1;
    }
  }

  // ---------------------------------------------------------------------
  // Pipeline wiring
  // ---------------------------------------------------------------------

  const STDIN_FILENO: int := 0
  const STDOUT_FILENO: int := 1

  /** The two ends of a pipe, `READ_END` (0) and `WRITE_END` (1). */
  datatype Side = ReadEnd | WriteEnd

  /** One end of a pipe; pipes are named by the stage that created them. */
  datatype PipeEnd = PipeEnd(pipe: nat, side: Side)

  /** The descriptors of both ends of pipe `p`. */
  function Ends(p: nat): (ends: set<PipeEnd>)
  {
    {PipeEnd(p, ReadEnd), PipeEnd(p, WriteEnd)}
  }

  /** Where a standard descriptor of a child points. */
  datatype Stream = Inherited | Pipe(end: PipeEnd)

  /** What a forked child does before it runs its command, in order. */
  datatype ChildStep =
    | DupOnto(end: PipeEnd, fd: int)   // dup2 of a pipe end onto a standard descriptor
    | CloseEnd(end: PipeEnd)           // close of a pipe end
    | Execute(cmd: Command)            // redirect and exec the stage's command

  /**
   * One stage of a pipeline: the pipe created before its fork (if any), the
   * pipe ends the child inherits from the parent, the child's steps and the
   * pipe ends the parent closes after the fork.
   */
  datatype StagePlan = StagePlan(created: Option<nat>, inherited: set<PipeEnd>, child: seq<ChildStep>, parentCloses: seq<PipeEnd>)

  /** The stream descriptor `fd` refers to after `steps`: the last pipe end duplicated onto it. */
  function Binding(steps: seq<ChildStep>, fd: int): (stream: Stream)
  {
    if |steps| == 0 then Inherited
    else
      var last := steps[|steps| - 1];
      if last.DupOnto? && last.fd == fd then Pipe(last.end) else Binding(steps[..|steps| - 1], fd)
  }

  /** The pipe-end descriptors still open after `steps`, starting from `open`. */
  function OpenAfter(open: set<PipeEnd>, steps: seq<ChildStep>): (ends: set<PipeEnd>)
  {
    if |steps| == 0 then open
    else
      var last := steps[|steps| - 1];
      var rest := OpenAfter(open, steps[..|steps| - 1]);
      if last.CloseEnd? then rest - {last.end} else rest
  }

  /** Every duplication and close names a pipe end that is open at that moment. */
  ghost predicate UsesOpenEnds(open: set<PipeEnd>, steps: seq<ChildStep>)
  {
    forall j :: 0 <= j < |steps| && !steps[j].Execute? ==> steps[j].end in OpenAfter(open, steps[..j])
  }

  /**
   * The wiring of stage `i` of an `n`-stage pipeline: pipe `i` is created iff
   * `i < n - 1`; the child reads pipe `i - 1` on stdin iff `i != 0` and writes
   * pipe `i` on stdout iff `i != n - 1`; it keeps open exactly those two ends;
   * it then runs its own command; the parent closes both ends of pipe `i - 1`
   * iff `i != 0`.
   */
  ghost predicate StageWired(cmds: seq<Command>, i: nat, s: StagePlan)
    requires i < |cmds|
  {
    var n := |cmds|;
    && s.created == (if i < n - 1 then Some(i) else None)
    && s.inherited == (if i > 0 then Ends(i - 1) else {}) + (if i < n - 1 then Ends(i) else {})
    && UsesOpenEnds(s.inherited, s.child)
    && Binding(s.child, STDIN_FILENO) == (if i == 0 then Inherited else Pipe(PipeEnd(i - 1, ReadEnd)))
    && Binding(s.child, STDOUT_FILENO) == (if i == n - 1 then Inherited else Pipe(PipeEnd(i, WriteEnd)))
    && OpenAfter(s.inherited, s.child)
       == (if i > 0 then {PipeEnd(i - 1, ReadEnd)} else {}) + (if i < n - 1 then {PipeEnd(i, WriteEnd)} else {})
    && |s.child| >= 1 && s.child[|s.child| - 1] == Execute(cmds[i])
    && s.parentCloses == (if i == 0 then [] else [PipeEnd(i - 1, ReadEnd), PipeEnd(i - 1, WriteEnd)])
  }

  /**
   * `pipe_and_fork_commands`: stage by stage, create the next pipe (unless
   * this is the last stage), fork, wire the child and let the parent close
   * the previous pipe.  `pipeOk` records, in order, whether each `pipe` call
   * succeeded.  A failed `pipe` returns -1 before the stage is forked and
   * leaves the previous pipe open in the parent; otherwise the result is the
   * number of stages and the parent holds no pipe end.
   */
  method PipeAndForkCommands(cmds: seq<Command>)
    returns (r: int, pipeOk: seq<bool>, plan: seq<StagePlan>, parentOpen: set<PipeEnd>)
    ensures r == |cmds| || r == -1
    ensures r == |cmds| <==> |plan| == |cmds|
    ensures r == -1 ==> |plan| < |cmds| - 1
    ensures forall j :: 0 <= j < |pipeOk| - 1 ==> pipeOk[j]
    ensures r == -1 <==> |pipeOk| > 0 && !pipeOk[|pipeOk| - 1]
    ensures r == -1 ==> |pipeOk| == |plan| + 1
    ensures r == |cmds| <==>
      |pipeOk| == (if |cmds| == 0 then 0 else |cmds| - 1) && forall j :: 0 <= j < |pipeOk| ==> pipeOk[j]
    ensures parentOpen == if r == -1 && |plan| > 0 then Ends(|plan| - 1) else {}
    ensures forall i :: 0 <= i < |plan| ==> StageWired(cmds, i, plan[i])
  {
    var n := |cmds|;
    var inPipe: nat := 0;
    var outPipe: nat := 0;
    parentOpen := {};
    pipeOk := [];
    plan := [];
    var i := 0;
    while i < n
      invariant 0 <= i <= n && |plan| == i
      invariant |pipeOk| == if i == n && n > 0 then n - 1 else i
      invariant forall j :: 0 <= j < |pipeOk| ==> pipeOk[j]
      invariant 0 < i < n ==> inPipe == i - 1
      invariant parentOpen == if 0 < i < n then Ends(i - 1) else {}
      invariant forall k :: 0 <= k < i ==> StageWired(cmds, k, plan[k])
    {
      var created: Option<nat> := None;
      if i < n - 1 {
        var ret: int := *;
        pipeOk := pipeOk + [ret != -1];
        if ret == -1 {
          r := -1;
          return;
        }
        outPipe := i;
        created := Some(i);
        parentOpen := parentOpen + Ends(outPipe);
      }
      // fork(): the child starts with a copy of the parent's descriptors
      var inherited := parentOpen;
      var child: seq<ChildStep> := [];
      if i != 0 {
        child := child + Connect(PipeEnd(inPipe, ReadEnd), PipeEnd(inPipe, WriteEnd), STDIN_FILENO);
      }
      if i != n - 1 {
        child := child + Connect(PipeEnd(outPipe, WriteEnd), PipeEnd(outPipe, ReadEnd), STDOUT_FILENO);
      }
      child := child + [Execute(cmds[i])];
      var closes: seq<PipeEnd> := [];
      if i != 0 {
        closes := [PipeEnd(inPipe, ReadEnd), PipeEnd(inPipe, WriteEnd)];
        parentOpen := parentOpen - Ends(inPipe);
      }
      inPipe := outPipe;
      var stage := StagePlan(created, inherited, child, closes);
      WiredStage(cmds, i, stage);
      WiredAppend(cmds, plan, stage);
      plan := plan + [stage];
      i := i + 1;
    }
    r := n;
  }

  /**
   * `dupPipe` of pipe end `keep` onto `fd` followed by the close of the same
   * pipe's other end `drop`, as a child does for each pipe it uses.
   */
  function Connect(keep: PipeEnd, drop: PipeEnd, fd: int): (steps: seq<ChildStep>)
  {
    [DupOnto(keep, fd), CloseEnd(drop)]
  }

  /**
   * After `Connect(keep, drop, fd)`, `fd` refers to `keep` and no other
   * descriptor is rebound; `drop` is closed; and both steps use open ends
   * exactly when `keep` and `drop` are open.
   */
  lemma ConnectFacts(open: set<PipeEnd>, keep: PipeEnd, drop: PipeEnd, fd: int)
    ensures Binding(Connect(keep, drop, fd), fd) == Pipe(keep)
    ensures forall g :: g != fd ==> Binding(Connect(keep, drop, fd), g) == Inherited
    ensures OpenAfter(open, Connect(keep, drop, fd)) == open - {drop}
    ensures UsesOpenEnds(open, Connect(keep, drop, fd)) <==> keep in open && drop in open
  {
    var c := Connect(keep, drop, fd);
    var dup := [DupOnto(keep, fd)];
    assert c[..1] == dup && dup[..0] == [];
    forall g
      ensures Binding(c, g) == if g == fd then Pipe(keep) else Inherited
    {
      assert Binding(c, g) == Binding(dup, g);
    }
    assert OpenAfter(open, dup) == open;
    assert OpenAfter(open, c) == open - {drop};
    assert c[..0] == [];
  }

  /** Running the command rebinds nothing and closes nothing. */
  lemma ExecuteFacts(open: set<PipeEnd>, cmd: Command)
    ensures forall fd :: Binding([Execute(cmd)], fd) == Inherited
    ensures OpenAfter(open, [Execute(cmd)]) == open
    ensures UsesOpenEnds(open, [Execute(cmd)])
  {
    assert [Execute(cmd)][..0] == [];
  }

  /** A later duplication onto `fd` overrides an earlier one. */
  lemma {:induction false} BindingAppend(a: seq<ChildStep>, b: seq<ChildStep>, fd: int)
    ensures Binding(a + b, fd) == if Binding(b, fd) == Inherited then Binding(a, fd) else Binding(b, fd)
    decreases |b|
  {
    if |b| == 0 {
      assert a + b == a;
    } else {
      assert (a + b)[..|a + b| - 1] == a + b[..|b| - 1];
      BindingAppend(a, b[..|b| - 1], fd);
    }
  }

  /** Running `a + b` closes what `a` closes and then what `b` closes. */
  lemma {:induction false} OpenAfterAppend(open: set<PipeEnd>, a: seq<ChildStep>, b: seq<ChildStep>)
    ensures OpenAfter(open, a + b) == OpenAfter(OpenAfter(open, a), b)
    decreases |b|
  {
    if |b| == 0 {
      assert a + b == a;
    } else {
      assert (a + b)[..|a + b| - 1] == a + b[..|b| - 1];
      OpenAfterAppend(open, a, b[..|b| - 1]);
    }
  }

  /** `a + b` uses only open ends iff `a` does and `b` does from where `a` leaves off. */
  lemma UsesOpenEndsAppend(open: set<PipeEnd>, a: seq<ChildStep>, b: seq<ChildStep>)
    ensures UsesOpenEnds(open, a + b) <==> UsesOpenEnds(open, a) && UsesOpenEnds(OpenAfter(open, a), b)
  {
    var t := a + b;
    forall j | 0 <= j < |a|
      ensures t[j] == a[j] && t[..j] == a[..j]
    {
    }
    forall j | 0 <= j < |b|
      ensures t[|a| + j] == b[j] && OpenAfter(open, t[..|a| + j]) == OpenAfter(OpenAfter(open, a), b[..j])
    {
      assert t[..|a| + j] == a + b[..j];
      OpenAfterAppend(open, a, b[..j]);
    }
    if UsesOpenEnds(open, a) && UsesOpenEnds(OpenAfter(open, a), b) {
      forall j | 0 <= j < |t| && !t[j].Execute?
        ensures t[j].end in OpenAfter(open, t[..j])
      {
        if j >= |a| {
          assert t[|a| + (j - |a|)] == b[j - |a|];
        }
      }
    }
    if UsesOpenEnds(open, t) {
      forall j | 0 <= j < |b| && !b[j].Execute?
        ensures b[j].end in OpenAfter(OpenAfter(open, a), b[..j])
      {
        assert t[|a| + j] == b[j];
      }
    }
  }

  /** Appending a wired stage to a plan of wired stages gives a plan of wired stages. */
  lemma WiredAppend(cmds: seq<Command>, plan: seq<StagePlan>, s: StagePlan)
    requires |plan| < |cmds| && StageWired(cmds, |plan|, s)
    requires forall k :: 0 <= k < |plan| ==> StageWired(cmds, k, plan[k])
    ensures forall k :: 0 <= k < |plan| + 1 ==> StageWired(cmds, k, (plan + [s])[k])
  {
    forall k | 0 <= k < |plan| + 1
      ensures StageWired(cmds, k, (plan + [s])[k])
    {
      if k < |plan| {
        assert (plan + [s])[k] == plan[k];
      } else {
        assert (plan + [s])[k] == s;
      }
    }
  }

  /** The stage the loop body of `PipeAndForkCommands` builds meets `StageWired`. */
  lemma WiredStage(cmds: seq<Command>, i: nat, s: StagePlan)
    requires i < |cmds|
    requires s.created == (if i < |cmds| - 1 then Some(i) else None)
    requires s.inherited == (if i > 0 then Ends(i - 1) else {}) + (if i < |cmds| - 1 then Ends(i) else {})
    requires s.child ==
      (if i != 0 then Connect(PipeEnd(i - 1, ReadEnd), PipeEnd(i - 1, WriteEnd), STDIN_FILENO) else [])
      + (if i != |cmds| - 1 then Connect(PipeEnd(i, WriteEnd), PipeEnd(i, ReadEnd), STDOUT_FILENO) else [])
      + [Execute(cmds[i])]
    requires s.parentCloses == (if i == 0 then [] else [PipeEnd(i - 1, ReadEnd), PipeEnd(i - 1, WriteEnd)])
    ensures StageWired(cmds, i, s)
  {
    var n := |cmds|;
    var prev: nat := if i > 0 then i - 1 else 0;
    var a := if i != 0 then Connect(PipeEnd(prev, ReadEnd), PipeEnd(prev, WriteEnd), STDIN_FILENO) else [];
    var b := if i != n - 1 then Connect(PipeEnd(i, WriteEnd), PipeEnd(i, ReadEnd), STDOUT_FILENO) else [];
    var e := [Execute(cmds[i])];
    var open := s.inherited;
    var mid := OpenAfter(open, a);
    if i != 0 {
      ConnectFacts(open, PipeEnd(prev, ReadEnd), PipeEnd(prev, WriteEnd), STDIN_FILENO);
      assert mid == open - {PipeEnd(prev, WriteEnd)};
    } else {
      assert mid == open;
    }
    var last := OpenAfter(mid, b);
    if i != n - 1 {
      ConnectFacts(mid, PipeEnd(i, WriteEnd), PipeEnd(i, ReadEnd), STDOUT_FILENO);
      assert last == mid - {PipeEnd(i, ReadEnd)};
    } else {
      assert last == mid;
    }
    ExecuteFacts(last, cmds[i]);
    assert s.child == (a + b) + e;
    OpenAfterAppend(open, a, b);
    OpenAfterAppend(open, a + b, e);
    UsesOpenEndsAppend(open, a, b);
    UsesOpenEndsAppend(open, a + b, e);
    BindingAppend(a, b, STDIN_FILENO);
    BindingAppend(a, b, STDOUT_FILENO);
    BindingAppend(a + b, e, STDIN_FILENO);
    BindingAppend(a + b, e, STDOUT_FILENO);
  }

  /** The pipe ends a child still holds when it runs its command. */
  function Holds(s: StagePlan): (ends: set<PipeEnd>)
  {
    OpenAfter(s.inherited, s.child)
  }

  /**
   * In a completely built pipeline, stage `i` writes into pipe `i` and stage
   * `i + 1` reads from it; the first stage keeps the shell's stdin and the
   * last stage its stdout.
   */
  lemma PipelineConnected(cmds: seq<Command>, plan: seq<StagePlan>)
    requires |plan| == |cmds| >= 1
    requires forall i :: 0 <= i < |plan| ==> StageWired(cmds, i, plan[i])
    ensures Binding(plan[0].child, STDIN_FILENO) == Inherited
    ensures Binding(plan[|plan| - 1].child, STDOUT_FILENO) == Inherited
    ensures forall i :: 0 <= i < |plan| - 1 ==>
      && Binding(plan[i].child, STDOUT_FILENO) == Pipe(PipeEnd(i, WriteEnd))
      && Binding(plan[i + 1].child, STDIN_FILENO) == Pipe(PipeEnd(i, ReadEnd))
  {
    assert StageWired(cmds, 0, plan[0]);
    assert StageWired(cmds, |plan| - 1, plan[|plan| - 1]);
  }

  /**
   * Each pipe end is held by exactly one child: the write end of pipe `p` by
   * stage `p` and its read end by stage `p + 1` (so a reader sees end-of-file
   * once its writer exits).
   */
  lemma SoleHolders(cmds: seq<Command>, plan: seq<StagePlan>, p: nat, i: nat)
    requires i < |plan| <= |cmds|
    requires forall k :: 0 <= k < |plan| ==> StageWired(cmds, k, plan[k])
    ensures PipeEnd(p, WriteEnd) in Holds(plan[i]) <==> i == p && p < |cmds| - 1
    ensures PipeEnd(p, ReadEnd) in Holds(plan[i]) <==> i == p + 1
  {
    assert StageWired(cmds, i, plan[i]);
  }

  /** How many stages of `plan` created a pipe. */
  function CreatedPipes(plan: seq<StagePlan>): (count: nat)
  {
    if |plan| == 0 then 0
    else CreatedPipes(plan[..|plan| - 1]) + (if plan[|plan| - 1].created.Some? then 1 else 0)
  }

  /** The first `k` stages of an `n`-stage pipeline create `min(k, n - 1)` pipes. */
  lemma {:induction false} CreatedPipesPrefix(cmds: seq<Command>, plan: seq<StagePlan>, k: nat)
    requires k <= |plan| <= |cmds| && |cmds| >= 1
    requires forall i :: 0 <= i < |plan| ==> StageWired(cmds, i, plan[i])
    ensures CreatedPipes(plan[..k]) == if k < |cmds| then k else |cmds| - 1
  {
    if k > 0 {
      CreatedPipesPrefix(cmds, plan, k - 1);
      assert plan[..k][..k - 1] == plan[..k - 1];
      assert StageWired(cmds, k - 1, plan[k - 1]);
    }
  }

  /** A pipeline of `n >= 1` stages that is fully built uses exactly `n - 1` pipes. */
  lemma PipeCount(cmds: seq<Command>, plan: seq<StagePlan>)
    requires |plan| == |cmds| >= 1
    requires forall i :: 0 <= i < |plan| ==> StageWired(cmds, i, plan[i])
    ensures CreatedPipes(plan) == |cmds| - 1
  {
    CreatedPipesPrefix(cmds, plan, |plan|);
    assert plan[..|plan|] == plan;
  }

  // ---------------------------------------------------------------------
  // File redirection of one stage
  // ---------------------------------------------------------------------

  /** Linux `open` flags. */
  const O_RDONLY: int := 0
  const O_WRONLY: int := 1
  const O_CREAT: int := 0x40

  /** A file to open with `flags` and duplicate onto descriptor `fd`. */
  datatype Target = Target(path: string, flags: int, fd: int)

  /** One `redirect` call and whether it succeeded. */
  datatype Attempt = Attempt(target: Target, ok: bool)

  /**
   * The redirections a command asks for, in the order they are made: the
   * input file (read only, onto stdin), then the output file (write only,
   * created if missing, onto stdout).
   */
  function Redirections(cmd: Command): (targets: seq<Target>)
  {
    (if cmd.infile.Some? then [Target(cmd.infile.value, O_RDONLY, STDIN_FILENO)] else [])
    + (if cmd.outfile.Some? then [Target(cmd.outfile.value, O_WRONLY + O_CREAT, STDOUT_FILENO)] else [])
  }

  /**
   * `redirect_extrenal_command`: make the requested redirections in order,
   * skipping an absent file; stop with -1 at the first failure, otherwise
   * return 0.
   */
  method RedirectExternalCommand(cmd: Command) returns (r: int, attempts: seq<Attempt>)
    ensures r == 0 || r == -1
    ensures |attempts| <= |Redirections(cmd)|
    ensures forall j :: 0 <= j < |attempts| ==> attempts[j].target == Redirections(cmd)[j]
    ensures forall j :: 0 <= j < |attempts| - 1 ==> attempts[j].ok
    ensures r == 0 <==> |attempts| == |Redirections(cmd)| && forall j :: 0 <= j < |attempts| ==> attempts[j].ok
    ensures r == -1 <==> |attempts| > 0 && !attempts[|attempts| - 1].ok
  {
    attempts := [];
    if cmd.infile.Some? {
      var ret: int := *;
      attempts := attempts + [Attempt(Target(cmd.infile.value, O_RDONLY, STDIN_FILENO), ret >= 0)];
      if ret < 0 {
        assert !attempts[|attempts| - 1].ok;
        return -1, attempts;
      }
    }
    if cmd.outfile.Some? {
      var ret: int := *;
      attempts := attempts + [Attempt(Target(cmd.outfile.value, O_WRONLY + O_CREAT, STDOUT_FILENO), ret >= 0)];
      if ret < 0 {
        assert !attempts[|attempts| - 1].ok;
        return -1, attempts;
      }
    }
    r := 0;
  }
}

=== FILE: sighant.dfy ===
/**
 * The signal bridge of sighant.c: the broadcast of SIGINT to every child pid
 * held in the shell's child list, the handler's signal filter, and the
 * installation rule for that handler.
 *
 * `kill` is an operating-system call; here each call becomes a `KillEvent`
 * appended to the returned trace, and whether it failed is left open
 * (a nondeterministic choice).
 */
module SignalHandling {
  import opened LinkedList

  /** The signal number of SIGINT on Linux. */
  const SIGINT: int := 2

  /** One `kill(pid, signo)` call and whether it reported failure. */
  datatype KillEvent = KillEvent(pid: int, signo: int, failed: bool)

  /** The pids of a trace of `kill` calls, in call order. */
  function Pids(events: seq<KillEvent>): (pids: seq<int>)
  {
    seq(|events|, i requires 0 <= i < |events| => events[i].pid)
  }

  /** `s` read from its last element to its first. */
  function Reversed<T>(s: seq<T>): (r: seq<T>)
  {
    if |s| == 0 then [] else [s[|s| - 1]] + Reversed(s[..|s| - 1])
  }

  /** Element `i` of the reversal is element `|s| - 1 - i` of the original. */
  lemma {:induction false} ReversedIndex<T>(s: seq<T>, i: nat)
    requires i < |s|
    ensures |Reversed(s)| == |s| && Reversed(s)[i] == s[|s| - 1 - i]
  {
    ReversedLength(s);
    if i > 0 {
      ReversedIndex(s[..|s| - 1], i - 1);
    }
  }

  lemma {:induction false} ReversedLength<T>(s: seq<T>)
    ensures |Reversed(s)| == |s|
  {
    if |s| > 0 {
      ReversedLength(s[..|s| - 1]);
    }
  }

  /**
   * `kill_children`: walk the child list from its last element back to the
   * header and send SIGINT to each pid.  Exactly one `kill` per element, from
   * last to first, so the pid trace is the reverse of the list; a failed
   * `kill` is reported (its event is marked) and the walk goes on.  The list
   * is only read.
   */
  method KillChildren(children: List<int>) returns (events: seq<KillEvent>)
    requires children.Valid()
    ensures |events| == |children.Contents|
    ensures forall i :: 0 <= i < |events| ==> events[i].signo == SIGINT
    ensures Pids(events) == Reversed(children.Contents)
  {
    var firstPos := children.First();
    var lastPos := children.Last();
    var currentPos := children.Previous(lastPos);
    ghost var k := |children.Nodes| - 2;
    events := [];
    while currentPos != firstPos
      invariant 0 <= k <= |children.Nodes| - 2 && currentPos == children.Nodes[k]
      invariant |events| == |children.Contents| - k
      invariant forall i :: 0 <= i < |events| ==>
        events[i].signo == SIGINT && events[i].pid == children.Contents[|children.Contents| - 1 - i]
      decreases k
    {
      assert k != 0;
      var value := children.GetValue(currentPos);
      var childPid := value.value;
      var ret: int := *;
      events := events + [KillEvent(childPid, SIGINT, ret < 0)];
      currentPos := children.Previous(currentPos);
      k := k - 1;
    }
    ReversedLength(children.Contents);
    forall i | 0 <= i < |events|
      ensures Pids(events)[i] == Reversed(children.Contents)[i]
    {
      ReversedIndex(children.Contents, i);
    }
  }

  /**
   * `shell_signal_handler`: on SIGINT broadcast to the children; any other
   * signal is ignored.
   */
  method ShellSignalHandler(signo: int, children: List<int>) returns (events: seq<KillEvent>)
    requires children.Valid()
    ensures signo != SIGINT ==> events == []
    ensures signo == SIGINT ==> Pids(events) == Reversed(children.Contents)
    ensures forall i :: 0 <= i < |events| ==> events[i].signo == SIGINT
  {
    if signo == SIGINT {
      events := KillChildren(children);
    } else {
      events := [];
    }
  }

  /** What a process does on a signal: the default action, ignore it, or run the shell's handler. */
  datatype Disposition = Default | Ignore | ShellHandler

  /** The process's signal dispositions, as `sigaction` reads and writes them. */
  class SignalTable {
    var actions: map<int, Disposition>

    /** The disposition of `signo`; a signal never set has the default action. */
    function Action(signo: int): (action: Disposition)
      reads this
    {
      if signo in actions then actions[signo] else Default
    }

    constructor (actions: map<int, Disposition>)
      ensures this.actions == actions
    {
      this.actions := actions;
    }

    /**
     * `setup_signal_handling`: read the SIGINT disposition and replace it by
     * the shell handler unless it is "ignore", which is kept; no other
     * signal's disposition changes.
     */
    method SetupSignalHandling()
      modifies this
      ensures old(Action(SIGINT)) == Ignore ==> actions == old(actions)
      ensures old(Action(SIGINT)) != Ignore ==> actions == old(actions)[SIGINT := ShellHandler]
      ensures Action(SIGINT) == if old(Action(SIGINT)) == Ignore then Ignore else ShellHandler
      ensures forall s :: s != SIGINT ==> Action(s) == old(Action(s))
    {
      var oldAction := Action(SIGINT);
      if oldAction != Ignore {
        actions := actions[SIGINT := ShellHandler];
      }
    }
  }
}

=== FILE: wrappers.dfy ===
/** Optional values: the model's stand-in for a C pointer that may be NULL. */
module Wrappers {

  datatype Option<+T> = None | Some(value: T)

}
